=== FILE: README.md ===
# marco: role election of one peer, in Dafny

`marco` lets a pool of equal Node.js processes elect one *scheduler* among
themselves; all other processes become *workers*. They talk only over two
Redis publish/subscribe channels, `marco` and `polo`, and run on local timers.

A peer calls roll by publishing `marco`. Every other peer answers with `polo`
and starts an election of its own, or joins the one it already has open. During a 3000 ms *election window*, each
peer collects the ids it hears into its `workerList`. When the window closes,
it sorts the list numerically and takes the least id as the scheduler. A
`roleChange` event is emitted only when the peer's role actually changes. A
recurring *attendance* interval then makes the peer call roll again:

- every `rollCallFrequency` ms (10000) for a scheduler;
- twice as long for everyone else.

This project models one peer as a pure transition system and proves what the
code promises. All of the modelled code is in `index.js`.

## Layout

- `wrappers.dfy`: `Option`.
- `decimal.dfy`: decimal rendering and parsing of ids. This is `workerId + ':'` on the sending side and `Number(...)` on the receiving side.
- `wire.dfy`: the `<senderId>:<value>` envelope that `speak` writes and `handleMessage` reads.
- `membership.dfy`:
  - `indexOf(...) === -1` followed by `push`;
  - the numeric `sort`;
  - the no-duplicates and sortedness predicates.
- `peer_state.dfy`:
  - the `Worker` fields as the `Peer` datatype;
  - the effects a reaction returns: publishes, timer arm/clear, `roleChange` events;
  - an abstract timer environment (`Timers`) that counts pending election windows and live attendance intervals.
- `attendance.dfy`: `resetAttendanceTimer`.
- `election.dfy`: `determineRank` and `checkIfBoss`.
- `handshake.dfy`: `callMarco` and `handleMessage`.
- `peer_node.dfy`:
  - the peer as an event-driven machine, with events `Ready`, `Message`, `WindowExpiry`, `AttendanceTick`;
  - runs over event sequences and the invariant they keep.
- `convergence.dfy`: the shared tie-break across peers that hold the same membership set.
- `scenarios.dfy`: a fresh peer's complete first election round.

The attendance period follows the role held *before* a resolution.
`checkIfBoss` calls `resetAttendanceTimer()` before it assigns
`self.role = newRole` (index.js:116-117). A peer's first resolution therefore
always arms the worker period, twice `rollCallFrequency`, even when the peer
has just become scheduler. It keeps that period until its next resolution.
The model keeps this ordering exactly:

- `Election.Resolve` states it;
- `Election.AttendancePeriodLagsRole` exhibits it;
- `Scenarios.ElectionRound` shows it for every first round.

Where the code and a plain reading of the protocol differ, the model follows
the code:

- The payload is only the text between the first and second colons, not the rest of the message (index.js:156).
- On `marco`, the sender is recorded *after* `determineRank`. So when a new election starts, the list becomes `[self, sender]` rather than losing the sender (index.js:172-179).
- There are no `share` or `notes` channels. `index.js` has no note store or aggregation logic, and none is modelled.

## Model

| member | source | states |
|---|---|---|
| Decimal.FromToDigits | index.js:155 | reading back the decimal text of an id (`Number` of `workerId + ''`) gives the same id |
| Decimal.ToFromDigits | index.js:155 | a canonical digit string (non-empty, no leading zero unless it is `0`) is exactly the rendering of the number it denotes |
| Wire.BeforeColon | index.js:155 | `split(':')[0]` is the longest colon-free prefix: it is a prefix, has no colon, and is followed by a colon or the end |
| Wire.AfterColon | index.js:156 | there is text after a first colon exactly when the message has a colon, and the message is the head, the colon and that text |
| Wire.MessageText | index.js:57 | a present, non-empty value is sent unchanged; the text sent is never empty |
| Wire.ParseSender | index.js:155 | a sender segment gives an id exactly when it is a (possibly empty) string of decimal digits, and that id is the number the digits denote (`007` gives 7, the empty string 0) |
| Wire.Decode | index.js:154-156 | the sender is a number exactly when the text before the first colon is all digits, and is the number that text denotes; there is a payload exactly when a colon is present; the payload is colon-free and ends at the second colon or at the end |
| Wire.DecodeEncode | index.js:56-58 | decoding what `speak` sent gives back the sender's id and, as payload, the sent text up to its first colon |
| Wire.DecodeEncodeColonFree | index.js:155-156 | a colon-free, non-empty value survives the round trip unchanged |
| Wire.DecodeEncodeAbsent | index.js:57 | an absent or empty value arrives as `no message` |
| Wire.PayloadStopsAtSecondColon | index.js:156 | a value `a:b` with colon-free `a` arrives as payload `a` only, even when `a` is empty |
| Membership.AddIfAbsent | index.js:162-164 | the id is present afterwards; nothing else is added; an id already present leaves the list as it was; otherwise it is appended at the end; a duplicate-free list stays duplicate-free |
| Membership.SortAscending | index.js:98 | the numeric sort returns an ascending permutation of the list |
| Membership.NoDuplicatesByCount | index.js:162 | a list has no duplicates exactly when every id occurs in it at most once |
| Attendance.ResetAttendance | index.js:62-82 | a held interval is cleared first and a new one is armed last, so exactly one is live afterwards; the armed interval and the peer's recorded period are both `rollCallFrequency` for a scheduler and twice that otherwise; nothing else about the peer changes, nothing is published and nothing is announced |
| Election.BeginElection | index.js:124-133 | with the guard raised, nothing happens; otherwise the list restarts as `[self]`, the guard is raised and exactly one 3000 ms window is armed |
| Election.TieBreak | index.js:100-104 | on a sorted list the peer is scheduler exactly when its id is in the list and no member is smaller; otherwise it is worker, never unset |
| Election.Resolve | index.js:92-122 | the list becomes its ascending permutation; the role is scheduler iff the peer's id is the least member; the guard is lowered; a `roleChange {id, from, to, connected}` is announced iff the role changed; the attendance timer is reset, a held interval cleared and a new one armed last, with the period of the old role, so exactly one is live afterwards; nothing is published |
| Election.BeginElectionIdempotent | index.js:124 | a second `determineRank` while one is in progress changes nothing and arms no window |
| Election.FirstResolutionAnnounces | index.js:106-114 | since the role starts undefined, a first resolution announces exactly one change, from unset |
| Election.ReResolveIsSilent | index.js:106 | resolving again over the same members keeps the role and announces nothing |
| Election.AttendancePeriodLagsRole | index.js:116-117 | a peer that wins its first election alone is scheduler but holds the worker period, twice `rollCallFrequency` |
| Handshake.CallMarco | index.js:84-88 | exactly one value-less `marco` is published, first; the remaining effects are exactly `determineRank`'s and the peer changes as `determineRank` alone changes it; nothing is announced |
| Handshake.RecordPolo | index.js:159-164 | a `polo` from another peer publishes nothing, changes nothing but the list, leaves the list as it was when the sender is already listed and otherwise appends it, and introduces no duplicate |
| Handshake.AnswerMarco | index.js:172-179 | a `marco` from another peer publishes exactly one `polo`, first; the timers change as `determineRank` alone changes them; an election is open afterwards; the list is the election's list with the sender appended if absent, without duplicates |
| Handshake.OnMessage | index.js:154-185 | a sender that is not a digit string (see Left out), the peer's own id or another channel changes nothing; `polo` only records its sender, if absent, and publishes nothing; `marco` publishes exactly one `polo`, runs `determineRank`, and leaves the list as the election's list plus the sender; no duplicates are introduced |
| Handshake.OwnBroadcastIgnored | index.js:158-171 | a peer's own `marco` or `polo` delivered back to it changes nothing |
| Handshake.MarcoSenderRecorded | index.js:172-179 | after a `marco` from another peer, that peer is always in the list and an election is open |
| PeerNode.NewPeerConsistent | index.js:9-16 | a fresh peer holds no timers and satisfies the running invariant |
| PeerNode.CallMarcoKeepsConsistency | index.js:84-88 | calling roll keeps the invariant: at most one election window, one attendance interval, and a duplicate-free list holding self while electing |
| PeerNode.ResolveKeepsConsistency | index.js:92-122 | the window's expiry keeps the invariant and uses up the one pending window |
| PeerNode.MessageKeepsConsistency | index.js:154-185 | every inbound message keeps the invariant |
| PeerNode.StepPreservesConsistency | index.js:84-185 | each event a peer reacts to (ready, message, window expiry, attendance tick) keeps the invariant |
| PeerNode.ExecutePreservesConsistency | index.js:62-136 | every run of events from a consistent state ends consistent, so the peer never holds more than one election window or attendance interval |
| PeerNode.StepRoleHistory | index.js:106-117 | the `roleChange` events of one reaction lead from the old role to the new one, each to a different role |
| PeerNode.ExecuteReportsRoleChanges | index.js:106-114 | over any run, the announced changes chain from the starting role to the final role, each a real change |
| Convergence.SeesAllMembers | index.js:98-104 | a peer whose list names exactly a set of ids resolves as scheduler iff its id is the least of them |
| Convergence.ExactlyOneScheduler | index.js:98-104 | peers whose lists all name the same ids resolve to exactly one scheduler, the least id |
| Scenarios.GatherDuringElection | index.js:159-179 | beacons from other peers during an open election only add their senders to the list, and announce nothing |
| Scenarios.ElectionRound | index.js:84-133 | a fresh peer's first round: scheduler iff every peer it heard from has a larger id; exactly one change from unset; the list is itself plus the senders, ascending and duplicate-free; the period is the worker's |

## Left out

- The Redis transport: creating clients, `auth`, `subscribe`, the `error` handlers and `publish` itself (index.js:29-54). A publish is an effect that a transition returns, and subscription becoming ready is the `Ready` event.
- `exitGracefully` (index.js:138-152): process teardown, logging and `process.exit`.
- Real `setTimeout`, `setInterval`, `clearInterval` and `unref` (index.js:66-79, index.js:130). They are effects, and their firing is an input event. Wall-clock time and the order in which timers fire are left to the environment.
- The id taken from `new Date().getTime()` (index.js:19). An id is a given natural number.
- The `EventEmitter` base (index.js:27). A `roleChange` is an effect carrying its payload.
- Wire.ParseSender: `Number(...)` is modelled only on digit strings. The empty string gives 0, as `Number('')` does. Any other sender is dropped. JavaScript would also accept forms such as ` 12`, `0x1A` or `1e3`, and would push `NaN` for the rest, which `indexOf` never finds again.
- Handshake.OnMessage: a message whose sender segment is not a digit string is ignored on every channel. JavaScript parses it to `NaN` (or to a number, for notations such as ` 12` or `0x1A`), and `NaN !== workerId`. So a `marco` from such a sender is still answered with `polo`, runs `determineRank` and pushes `NaN` onto the list (index.js:170-179). A `polo` from it pushes another `NaN` every time, since `indexOf(NaN)` is always -1 (index.js:160-163). The model keeps ids natural, so the no-duplicates invariant can be stated.
- Ids above 2^53: JavaScript numbers lose precision there, while the model's ids are unbounded.
- The `connected` field holds a snapshot of the sorted list. JavaScript passes the array itself, so a later `push` is visible to a listener that kept it.
- Delivery of messages between peers, which is asynchronous. Agreement across peers is stated only for peers that hold the same membership set (`Convergence`).
- `duties` and `options.redis` (index.js:21-22): configuration the core never reads.

=== FILE: attendance.dfy ===
/**
  The attendance timer (`resetAttendanceTimer`, index.js:62-82): the one
  recurring interval that makes a peer call roll again.
 */
module Attendance {
  import opened Wrappers
  import opened PeerState

  /** A scheduler calls roll every `rollCallFrequency` ms; any other peer half as often. */
  function AttendancePeriod(role: Role, rollCallFrequency: nat): nat {
    if role == Scheduler then rollCallFrequency else rollCallFrequency * 2
  }

  /**
    `resetAttendanceTimer`: clear the interval the peer holds, if any, then arm
    one whose period follows the peer's current `role`.
   */
  function ResetAttendance(p: Peer): (r: Transition)
    ensures r.peer.(attendance := p.attendance) == p
    ensures r.peer.attendance.Some?
    ensures r.peer.role == Scheduler ==> r.peer.attendance.value == p.rollCallFrequency
    ensures r.peer.role != Scheduler ==> r.peer.attendance.value == 2 * p.rollCallFrequency
    ensures Notifications(r.effects) == []
    ensures PublishesNothing(r.effects)
    ensures ArmsAttendanceAt(r.effects, AttendancePeriod(p.role, p.rollCallFrequency))
    ensures ResetsAttendanceTo(r.effects, p.attendance.Some?, AttendancePeriod(p.role, p.rollCallFrequency))
    ensures forall t: Timers :: t.intervals == LiveIntervals(p) ==>
              Schedule(t, r.effects) == t.(intervals := 1)
  {
    var period := AttendancePeriod(p.role, p.rollCallFrequency);
    var clear := if p.attendance.Some? then [ClearAttendance] else [];
    var effects := clear + [ArmAttendance(period)];
    NotificationsAppend(clear, [ArmAttendance(period)]);
    assert p.attendance.Some? ==> effects[0] == ClearAttendance;
    forall t: Timers | t.intervals == LiveIntervals(p)
      ensures Schedule(t, effects) == t.(intervals := 1)
    {
      ScheduleAppend(t, clear, [ArmAttendance(period)]);
    }
    Transition(p.(attendance := Some(period)), effects)
  }
}

=== FILE: convergence.dfy ===
/**
  The tie-break across peers. Peers never exchange their conclusions; they
  agree only because each applies the same numeric rule (index.js:98-104) to
  its own membership list. When those lists name the same set of ids, exactly
  one peer, the one with the least id, resolves as scheduler.
 */
module Convergence {
  import opened PeerState
  import opened Membership
  import opened Election

  /** Every non-empty finite set of ids has a least element. */
  lemma {:induction false} LeastMember(s: set<nat>) returns (m: nat)
    requires s != {}
    ensures m in s && forall x :: x in s ==> m <= x
    decreases |s|
  {
    var x :| x in s;
    if s == {x} {
      m := x;
    } else {
      var rest := LeastMember(s - {x});
      m := if x <= rest then x else rest;
      forall y | y in s
        ensures m <= y
      {
        if y != x {
          assert y in s - {x};
        }
      }
    }
  }

  /** The peer's membership list names exactly the ids in `members`. */
  ghost predicate ListsExactly(p: Peer, members: set<nat>) {
    forall x :: x in p.workerList <==> x in members
  }

  /** The role the tie-break gives a peer over its current membership list. */
  function ResolvedRole(p: Peer): Role {
    TieBreak(p.id, SortAscending(p.workerList))
  }

  /** The members whose peers resolve as scheduler. */
  function Schedulers(members: set<nat>, peers: map<nat, Peer>): set<nat>
    requires forall i :: i in members ==> i in peers
  {
    set i | i in members && ResolvedRole(peers[i]) == Scheduler
  }

  /**
    Peers with distinct ids whose membership lists all name exactly the same
    ids resolve to exactly one scheduler: the peer with the least id.
   */
  lemma ExactlyOneScheduler(members: set<nat>, peers: map<nat, Peer>)
    requires members != {}
    requires forall i :: i in members ==> i in peers && peers[i].id == i && ListsExactly(peers[i], members)
    ensures forall i :: i in members ==>
              (ResolvedRole(peers[i]) == Scheduler <==> forall j :: j in members ==> i <= j)
    ensures |Schedulers(members, peers)| == 1
  {
    forall i | i in members
      ensures ResolvedRole(peers[i]) == Scheduler <==> forall j :: j in members ==> i <= j
    {
      SeesAllMembers(members, peers[i]);
    }
    var schedulers := Schedulers(members, peers);
    assert schedulers <= members;
    forall i | i in members
      ensures i in schedulers <==> forall j :: j in members ==> i <= j
    {
      assert i in schedulers <==> ResolvedRole(peers[i]) == Scheduler;
    }
    OnlyLeastQualifies(members, schedulers);
  }

  /** Exactly one member of a non-empty set is below or equal to all the others. */
  lemma OnlyLeastQualifies(members: set<nat>, chosen: set<nat>)
    requires members != {} && chosen <= members
    requires forall i :: i in members ==> (i in chosen <==> forall j :: j in members ==> i <= j)
    ensures |chosen| == 1
  {
    var least := LeastMember(members);
    forall i
      ensures i in chosen <==> i == least
    {
      if i in members {
        assert least <= i;
      }
    }
    assert chosen == {least};
  }

  /** A peer whose list names exactly `members` resolves as scheduler iff its id is least among them. */
  lemma SeesAllMembers(members: set<nat>, p: Peer)
    requires p.id in members && ListsExactly(p, members)
    ensures ResolvedRole(p) == Scheduler <==> forall j :: j in members ==> p.id <= j
    ensures Resolve(p).peer.role == ResolvedRole(p)
  {
    SameMembers(SortAscending(p.workerList), p.workerList);
  }
}

=== FILE: decimal.dfy ===
/**
  Decimal text for peer ids. A peer id is a JavaScript number written into the
  wire envelope with string concatenation (`workerId + ':'`) and read back with
  `Number(...)`. Ids are modelled as naturals, so the only notations that matter
  are plain decimal digit strings.
 */
module Decimal {

  predicate IsDigit(c: char) {
    '0' <= c <= '9'
  }

  predicate AllDigits(s: string) {
    forall i :: 0 <= i < |s| ==> IsDigit(s[i])
  }

  function DigitChar(d: nat): (c: char)
    requires d < 10
    ensures IsDigit(c)
    ensures DigitValue(c) == d
  {
    (('0' as int) + d) as char
  }

  function DigitValue(c: char): nat
    requires IsDigit(c)
  {
    (c as int) - ('0' as int)
  }

  /** The number a digit string denotes; the empty string denotes 0, as `Number('')` does. */
  function FromDigits(s: string): nat
    requires AllDigits(s)
  {
    if s == [] then 0 else FromDigits(s[..|s| - 1]) * 10 + DigitValue(s[|s| - 1])
  }

  /** The canonical decimal rendering of `n`: non-empty, digits only, no leading zero. */
  function ToDigits(n: nat): (s: string)
    ensures |s| > 0 && AllDigits(s)
    ensures s[0] == '0' ==> n == 0
  {
    if n < 10 then [DigitChar(n)] else ToDigits(n / 10) + [DigitChar(n % 10)]
  }

  /** Reading back a rendered id gives the id. */
  lemma {:induction false} FromToDigits(n: nat)
    ensures FromDigits(ToDigits(n)) == n
  {
    if n >= 10 {
      var s := ToDigits(n);
      var prefix := ToDigits(n / 10);
      assert s[..|s| - 1] == prefix;
      FromToDigits(n / 10);
    }
  }

  /** A digit string as `ToDigits` writes it: non-empty, and no leading zero unless it is `0` itself. */
  predicate Canonical(s: string) {
    |s| > 0 && AllDigits(s) && (s[0] == '0' ==> |s| == 1)
  }

  /** Rendering a parsed canonical digit string gives the string back. */
  lemma {:induction false} ToFromDigits(s: string)
    requires Canonical(s)
    ensures ToDigits(FromDigits(s)) == s
    decreases |s|
  {
    var last := s[|s| - 1];
    assert DigitChar(DigitValue(last)) == last;
    if |s| > 1 {
      var prefix := s[..|s| - 1];
      assert prefix[0] == s[0];
      ToFromDigits(prefix);
      var m := FromDigits(prefix);
      var n := FromDigits(s);
      assert n / 10 == m && n % 10 == DigitValue(last);
      assert s == prefix + [last];
    }
  }
}

=== FILE: election.dfy ===
/**
  Role election (`determineRank` and its `checkIfBoss` callback,
  index.js:90-136): a guarded collection window followed by a numeric
  tie-break in which the smallest id becomes scheduler.
 */
module Election {
  import opened Wrappers
  import opened Membership
  import opened PeerState
  import opened Attendance

  /**
    `determineRank`: unless an election is already in progress, restart the
    membership list with the peer itself, raise the guard and arm one election
    window.
   */
  function BeginElection(p: Peer): (r: Transition)
    ensures r.peer.determiningRank
    ensures p.determiningRank ==> r == Transition(p, [])
    ensures !p.determiningRank ==>
              && r.peer == p.(workerList := [p.id], determiningRank := true)
              && r.effects == [ArmElectionWindow(ElectionWindowMs)]
    ensures Notifications(r.effects) == []
    ensures forall t: Timers :: Schedule(t, r.effects) == t.(windows := t.windows + (if p.determiningRank then 0 else 1))
  {
    if p.determiningRank then Transition(p, [])
    else Transition(p.(workerList := [p.id], determiningRank := true), [ArmElectionWindow(ElectionWindowMs)])
  }

  /** `workerList[0] === workerId` on a sorted list: the least id is scheduler. */
  function TieBreak(id: nat, sorted: seq<nat>): (role: Role)
    requires Sorted(sorted)
    ensures role != Unset
    ensures role == Scheduler <==> id in sorted && forall x :: x in sorted ==> id <= x
  {
    if |sorted| == 0 then Worker
    else if sorted[0] == id then Scheduler
    else
      SortedHeadIsLeast(sorted);
      assert sorted[0] in sorted;
      Worker
  }

  /**
    `checkIfBoss`: sort the membership list, pick the role by tie-break,
    announce a change of role, reset the attendance timer (still under the old
    role), then commit the role and lower the guard.
   */
  function Resolve(p: Peer): (r: Transition)
    ensures r.peer.id == p.id && r.peer.rollCallFrequency == p.rollCallFrequency
    ensures Sorted(r.peer.workerList) && multiset(r.peer.workerList) == multiset(p.workerList)
    ensures r.peer.role != Unset
    ensures r.peer.role == Scheduler <==> p.id in p.workerList && forall x :: x in p.workerList ==> p.id <= x
    ensures !r.peer.determiningRank
    ensures r.peer.attendance == Some(AttendancePeriod(p.role, p.rollCallFrequency))
    ensures Notifications(r.effects) ==
              if p.role != r.peer.role
              then [RoleChangeEvent(p.id, p.role, r.peer.role, r.peer.workerList)]
              else []
    ensures forall t: Timers :: t.intervals == LiveIntervals(p) ==>
              Schedule(t, r.effects) == t.(intervals := 1)
    ensures PublishesNothing(r.effects)
    ensures ArmsAttendanceAt(r.effects, AttendancePeriod(p.role, p.rollCallFrequency))
    ensures ResetsAttendanceTo(r.effects, p.attendance.Some?, AttendancePeriod(p.role, p.rollCallFrequency))
  {
    var sorted := SortAscending(p.workerList);
    SameMembers(sorted, p.workerList);
    var newRole := TieBreak(p.id, sorted);
    var announce := if p.role != newRole then [RoleChange(RoleChangeEvent(p.id, p.role, newRole, sorted))] else [];
    var timer := ResetAttendance(p.(workerList := sorted));
    NotificationsAppend(announce, timer.effects);
    forall t: Timers
      ensures Schedule(t, announce + timer.effects) == Schedule(t, timer.effects)
    {
      MessagesLeaveTimers(t, announce, timer.effects);
    }
    AnnouncementsFirst(announce, timer.effects, AttendancePeriod(p.role, p.rollCallFrequency));
    ResetAfterAnnouncements(announce, timer.effects, p.attendance.Some?, AttendancePeriod(p.role, p.rollCallFrequency));
    Transition(timer.peer.(role := newRole, determiningRank := false), announce + timer.effects)
  }

  lemma SameMembers(a: seq<nat>, b: seq<nat>)
    requires multiset(a) == multiset(b)
    ensures forall x :: x in a <==> x in b
  {
    forall x
      ensures x in a <==> x in b
    {
      assert x in a <==> x in multiset(a);
      assert x in b <==> x in multiset(b);
    }
  }

  /** A second trigger while a window is open neither resets the list nor arms another window. */
  lemma BeginElectionIdempotent(p: Peer)
    ensures BeginElection(BeginElection(p).peer) == Transition(BeginElection(p).peer, [])
  {
  }

  /** The first resolution always announces, since the role starts unset. */
  lemma FirstResolutionAnnounces(p: Peer)
    requires p.role == Unset
    ensures |Notifications(Resolve(p).effects)| == 1
    ensures Notifications(Resolve(p).effects)[0].from == Unset
  {
  }

  /** Resolving again over the same members gives the same role and announces nothing. */
  lemma ReResolveIsSilent(p: Peer)
    ensures Resolve(Resolve(p).peer).peer.role == Resolve(p).peer.role
    ensures Notifications(Resolve(Resolve(p).peer).effects) == []
  {
    SameMembers(Resolve(p).peer.workerList, p.workerList);
  }

  /**
    The attendance period set by a resolution follows the role held before it:
    a peer that has never resolved and wins its first election keeps calling
    roll at the worker rate until its next resolution.
   */
  lemma AttendancePeriodLagsRole(p: Peer)
    requires p.role == Unset && p.workerList == [p.id]
    ensures Resolve(p).peer.role == Scheduler
    ensures Resolve(p).peer.attendance == Some(2 * p.rollCallFrequency)
  {
  }
}

=== FILE: handshake.dfy ===
/**
  The marco/polo handshake: `callMarco` (index.js:84-88) and the inbound
  dispatch of `handleMessage` (index.js:154-185).
 */
module Handshake {
  import opened Wrappers
  import opened Wire
  import opened Membership
  import opened PeerState
  import opened Election

  /** `callMarco`: broadcast a value-less `marco`, then start (or join) an election. */
  function CallMarco(p: Peer): (r: Transition)
    ensures |r.effects| >= 1 && r.effects[0] == Speak(p.id, MarcoChannel, None)
    ensures r.effects[1..] == BeginElection(p).effects
    ensures forall k :: 1 <= k < |r.effects| ==> !r.effects[k].Publish?
    ensures Notifications(r.effects) == []
    ensures r.peer == BeginElection(p).peer
    ensures forall t: Timers :: Schedule(t, r.effects) == Schedule(t, BeginElection(p).effects)
  {
    var election := BeginElection(p);
    NotificationsAppend([Speak(p.id, MarcoChannel, None)], election.effects);
    forall t: Timers
      ensures Schedule(t, [Speak(p.id, MarcoChannel, None)] + election.effects) == Schedule(t, election.effects)
    {
      MessagesLeaveTimers(t, [Speak(p.id, MarcoChannel, None)], election.effects);
    }
    Transition(election.peer, [Speak(p.id, MarcoChannel, None)] + election.effects)
  }

  /** A `polo` from `sender`, another peer: record it unless already listed. */
  function RecordPolo(p: Peer, sender: nat): (r: Transition)
    ensures r.effects == []
    ensures r.peer.(workerList := p.workerList) == p
    ensures p.workerList <= r.peer.workerList
    ensures sender in p.workerList ==> r == Transition(p, [])
    ensures forall y :: y in r.peer.workerList <==> y in p.workerList || y == sender
    ensures NoDuplicates(p.workerList) ==> NoDuplicates(r.peer.workerList)
  {
    Transition(p.(workerList := AddIfAbsent(p.workerList, sender)), [])
  }

  /** A `marco` from `sender`, another peer: answer `polo`, start (or join) an election, then record it. */
  function AnswerMarco(p: Peer, sender: nat): (r: Transition)
    ensures |r.effects| >= 1 && r.effects[0] == Speak(p.id, PoloChannel, None)
    ensures forall k :: 1 <= k < |r.effects| ==> !r.effects[k].Publish?
    ensures r.effects[1..] == BeginElection(p).effects
    ensures Notifications(r.effects) == []
    ensures forall t: Timers :: Schedule(t, r.effects) == Schedule(t, BeginElection(p).effects)
    ensures r.peer.determiningRank
    ensures r.peer.(workerList := p.workerList, determiningRank := p.determiningRank) == p
    ensures BeginElection(p).peer.workerList <= r.peer.workerList
    ensures var before := if p.determiningRank then p.workerList else [p.id];
            && (forall y :: y in r.peer.workerList <==> y in before || y == sender)
            && (NoDuplicates(before) ==> NoDuplicates(r.peer.workerList))
  {
    var reply := [Speak(p.id, PoloChannel, None)];
    var election := BeginElection(p);
    NotificationsAppend(reply, election.effects);
    forall t: Timers
      ensures Schedule(t, reply + election.effects) == Schedule(t, election.effects)
    {
      MessagesLeaveTimers(t, reply, election.effects);
    }
    Transition(election.peer.(workerList := AddIfAbsent(election.peer.workerList, sender)),
               reply + election.effects)
  }

  /**
    `handleMessage(channel, raw)`. Messages whose sender is this peer are
    ignored; a `polo` records its sender; a `marco` is answered with a `polo`,
    starts (or joins) an election and then records its sender. Other channels,
    and senders that are not decimal ids, change nothing.
   */
  function OnMessage(p: Peer, channel: string, raw: string): (r: Transition)
    ensures Notifications(r.effects) == []
    ensures Decode(raw).sender.None? ==> r == Transition(p, [])
    ensures Decode(raw).sender == Some(p.id) ==> r == Transition(p, [])
    ensures channel != MarcoChannel && channel != PoloChannel ==> r == Transition(p, [])
    ensures channel == PoloChannel && Decode(raw).sender.Some? && Decode(raw).sender.value != p.id ==>
              var sender := Decode(raw).sender.value;
              && r.effects == []
              && r.peer.(workerList := p.workerList) == p
              && p.workerList <= r.peer.workerList
              && (sender in p.workerList ==> r == Transition(p, []))
              && (forall y :: y in r.peer.workerList <==> y in p.workerList || y == sender)
              && (NoDuplicates(p.workerList) ==> NoDuplicates(r.peer.workerList))
    ensures channel == MarcoChannel && Decode(raw).sender.Some? && Decode(raw).sender.value != p.id ==>
              var sender := Decode(raw).sender.value;
              var before := if p.determiningRank then p.workerList else [p.id];
              && |r.effects| >= 1 && r.effects[0] == Speak(p.id, PoloChannel, None)
              && (forall k :: 1 <= k < |r.effects| ==> !r.effects[k].Publish?)
              && r.effects[1..] == BeginElection(p).effects
              && (forall t: Timers :: Schedule(t, r.effects) == Schedule(t, BeginElection(p).effects))
              && r.peer.determiningRank
              && r.peer.(workerList := p.workerList, determiningRank := p.determiningRank) == p
              && (forall y :: y in r.peer.workerList <==> y in before || y == sender)
              && (NoDuplicates(before) ==> NoDuplicates(r.peer.workerList))
  {
    match Decode(raw).sender
    case None => Transition(p, [])
    case Some(sender) =>
      if sender == p.id then Transition(p, [])
      else if channel == PoloChannel then RecordPolo(p, sender)
      else if channel == MarcoChannel then AnswerMarco(p, sender)
      else Transition(p, [])
  }

  /** A peer's own broadcast, delivered back to it, changes nothing on any channel. */
  lemma OwnBroadcastIgnored(p: Peer, channel: string, value: Option<string>)
    ensures OnMessage(p, channel, Encode(p.id, value)) == Transition(p, [])
  {
    DecodeEncode(p.id, value);
  }

  /** A `marco` from another peer always leaves that peer in the membership list. */
  lemma MarcoSenderRecorded(p: Peer, sender: nat, value: Option<string>)
    requires sender != p.id
    ensures sender in OnMessage(p, MarcoChannel, Encode(sender, value)).peer.workerList
    ensures OnMessage(p, MarcoChannel, Encode(sender, value)).peer.determiningRank
  {
    DecodeEncode(sender, value);
  }
}

=== FILE: membership.dfy ===
/**
  The `workerList` of a peer: the ids it has heard from since its last
  election started, kept free of duplicates by `indexOf` checks
  (index.js:162-164, index.js:177-179), and its numeric ascending sort
  (index.js:98).
 */
module Membership {

  predicate NoDuplicates(s: seq<nat>) {
    forall i, j :: 0 <= i < j < |s| ==> s[i] != s[j]
  }

  predicate Sorted(s: seq<nat>) {
    forall i, j :: 0 <= i < j < |s| ==> s[i] <= s[j]
  }

  /** `if (list.indexOf(x) === -1) list.push(x)`. */
  function AddIfAbsent(s: seq<nat>, x: nat): (r: seq<nat>)
    ensures x in r
    ensures forall y :: y in r <==> y in s || y == x
    ensures |s| <= |r| <= |s| + 1 && r[..|s|] == s
    ensures x in s ==> r == s
    ensures NoDuplicates(s) ==> NoDuplicates(r)
  {
    if x in s then s else s + [x]
  }

  lemma ConsSorted(y: nat, s: seq<nat>)
    requires Sorted(s)
    requires forall z :: z in s ==> y <= z
    ensures Sorted([y] + s)
  {
    var r := [y] + s;
    forall i, j | 0 <= i < j < |r|
      ensures r[i] <= r[j]
    {
      assert r[j] == s[j - 1] && s[j - 1] in s;
      if i > 0 {
        assert r[i] == s[i - 1];
      }
    }
  }

  /** Places `x` into a sorted list. */
  function Insert(x: nat, s: seq<nat>): (r: seq<nat>)
    requires Sorted(s)
    ensures Sorted(r)
    ensures multiset(r) == multiset(s) + multiset{x}
  {
    if s == [] then [x]
    else if x <= s[0] then
      ConsSorted(x, s);
      [x] + s
    else
      var rest := Insert(x, s[1..]);
      assert s == [s[0]] + s[1..];
      BoundedByContents(s[0], rest, s[1..], x);
      ConsSorted(s[0], rest);
      [s[0]] + rest
  }

  /** A bound on every element carries over to a list holding the same elements plus `x`. */
  lemma BoundedByContents(lo: nat, r: seq<nat>, s: seq<nat>, x: nat)
    requires multiset(r) == multiset(s) + multiset{x}
    requires lo <= x && forall y :: y in s ==> lo <= y
    ensures forall y :: y in r ==> lo <= y
  {
    forall y | y in r
      ensures lo <= y
    {
      assert multiset(r)[y] == multiset(s)[y] + multiset{x}[y];
      if y != x {
        assert y in multiset(s);
        assert y in s;
      }
    }
  }

  /** `list.sort(function(a, b) { return a - b; })` on naturals. */
  function SortAscending(s: seq<nat>): (r: seq<nat>)
    ensures Sorted(r)
    ensures multiset(r) == multiset(s)
  {
    if s == [] then []
    else
      assert s == [s[0]] + s[1..];
      Insert(s[0], SortAscending(s[1..]))
  }

  /** A list has no duplicates exactly when no id occurs in it twice. */
  lemma {:induction false} NoDuplicatesByCount(s: seq<nat>)
    ensures NoDuplicates(s) <==> forall x :: multiset(s)[x] <= 1
  {
    if s != [] {
      var t := s[1..];
      assert s == [s[0]] + t;
      NoDuplicatesByCount(t);
      if NoDuplicates(s) {
        assert NoDuplicates(t) by {
          forall i, j | 0 <= i < j < |t|
            ensures t[i] != t[j]
          {
            assert t[i] == s[i + 1] && t[j] == s[j + 1];
          }
        }
        assert s[0] !in t;
      } else {
        var i, j :| 0 <= i < j < |s| && s[i] == s[j];
        if i == 0 {
          assert s[j] == t[j - 1];
          assert multiset(s)[s[0]] == multiset(t)[s[0]] + 1;
        } else {
          assert !NoDuplicates(t) by {
            assert t[i - 1] == s[i] && t[j - 1] == s[j];
          }
          var x :| multiset(t)[x] > 1;
          assert multiset(s)[x] >= multiset(t)[x];
        }
      }
    }
  }

  /** Reordering keeps a duplicate-free list duplicate-free. */
  lemma PermutationKeepsNoDuplicates(a: seq<nat>, b: seq<nat>)
    requires multiset(a) == multiset(b) && NoDuplicates(a)
    ensures NoDuplicates(b)
  {
    NoDuplicatesByCount(a);
    NoDuplicatesByCount(b);
  }

  /** The head of a sorted list is its least element. */
  lemma SortedHeadIsLeast(s: seq<nat>)
    requires Sorted(s) && |s| > 0
    ensures forall x :: x in s ==> s[0] <= x
  {
  }
}

=== FILE: peer_node.dfy ===
/**
  One peer as an event-driven state machine. Its inputs are the subscription
  becoming ready (`registerListeners`, index.js:43-49), inbound messages
  (index.js:154-185), expiry of an election window (index.js:130) and ticks of
  the attendance interval (index.js:70, index.js:76). The environment's timers
  are tracked beside the peer so that properties about them can be stated.
 */
module PeerNode {
  import opened Membership
  import opened PeerState
  import opened Election
  import opened Handshake

  datatype Event =
    | Ready
    | Message(channel: string, raw: string)
    | WindowExpiry
    | AttendanceTick

  /** The peer's reaction to one event. */
  function Step(p: Peer, e: Event): Transition {
    match e
    case Ready => CallMarco(p)
    case AttendanceTick => CallMarco(p)
    case WindowExpiry => Resolve(p)
    case Message(channel, raw) => OnMessage(p, channel, raw)
  }

  /** An election window can only expire if one is pending; a tick needs a live interval. */
  predicate Enabled(t: Timers, e: Event) {
    match e
    case WindowExpiry => t.windows > 0
    case AttendanceTick => t.intervals > 0
    case _ => true
  }

  /** The timers after an event: an expired window is used up, then the step's effects apply. */
  function Advance(t: Timers, e: Event, effects: seq<Effect>): Timers
    requires Enabled(t, e)
  {
    Schedule(if e.WindowExpiry? then t.(windows := t.windows - 1) else t, effects)
  }

  /**
    The invariant of a running peer: the membership list has no duplicates and
    holds the peer itself while an election is open; exactly one election
    window is pending while `determiningRank` is raised and none otherwise; and
    the peer holds exactly one attendance interval once it has a role and none
    before.
   */
  predicate Consistent(p: Peer, t: Timers) {
    && NoDuplicates(p.workerList)
    && (p.determiningRank ==> p.id in p.workerList)
    && (p.role == Unset <==> p.attendance.None?)
    && t.windows == (if p.determiningRank then 1 else 0)
    && t.intervals == LiveIntervals(p)
  }

  lemma NewPeerConsistent(id: nat)
    ensures Consistent(NewPeer(id), Timers(0, 0))
  {
  }

  lemma StepPreservesConsistency(p: Peer, t: Timers, e: Event)
    requires Consistent(p, t) && Enabled(t, e)
    ensures Step(p, e).peer.id == p.id
    ensures Consistent(Step(p, e).peer, Advance(t, e, Step(p, e).effects))
  {
    match e
    case WindowExpiry => ResolveKeepsConsistency(p, t);
    case Message(channel, raw) => MessageKeepsConsistency(p, t, channel, raw);
    case _ => CallMarcoKeepsConsistency(p, t);
  }

  lemma CallMarcoKeepsConsistency(p: Peer, t: Timers)
    requires Consistent(p, t)
    ensures CallMarco(p).peer.id == p.id
    ensures Consistent(CallMarco(p).peer, Schedule(t, CallMarco(p).effects))
  {
  }

  lemma ResolveKeepsConsistency(p: Peer, t: Timers)
    requires Consistent(p, t) && t.windows > 0
    ensures Resolve(p).peer.id == p.id
    ensures Consistent(Resolve(p).peer, Schedule(t.(windows := t.windows - 1), Resolve(p).effects))
  {
    PermutationKeepsNoDuplicates(p.workerList, Resolve(p).peer.workerList);
  }

  lemma MessageKeepsConsistency(p: Peer, t: Timers, channel: string, raw: string)
    requires Consistent(p, t)
    ensures OnMessage(p, channel, raw).peer.id == p.id
    ensures Consistent(OnMessage(p, channel, raw).peer, Schedule(t, OnMessage(p, channel, raw).effects))
  {
  }

  /** The outcome of a sequence of events: final peer, final timers and every effect, in order. */
  datatype Run = Run(peer: Peer, timers: Timers, effects: seq<Effect>)

  /** Processes events in order; an event that cannot occur in the current timers is skipped. */
  function Execute(p: Peer, t: Timers, events: seq<Event>): Run
    decreases |events|
  {
    if events == [] then Run(p, t, [])
    else if !Enabled(t, events[0]) then Execute(p, t, events[1..])
    else
      var step := Step(p, events[0]);
      var rest := Execute(step.peer, Advance(t, events[0], step.effects), events[1..]);
      Run(rest.peer, rest.timers, step.effects + rest.effects)
  }

  /** Every reachable state is consistent: at most one election window and one attendance interval. */
  lemma {:induction false} ExecutePreservesConsistency(p: Peer, t: Timers, events: seq<Event>)
    requires Consistent(p, t)
    ensures Execute(p, t, events).peer.id == p.id
    ensures Consistent(Execute(p, t, events).peer, Execute(p, t, events).timers)
    decreases |events|
  {
    if events != [] {
      if Enabled(t, events[0]) {
        var step := Step(p, events[0]);
        StepPreservesConsistency(p, t, events[0]);
        ExecutePreservesConsistency(step.peer, Advance(t, events[0], step.effects), events[1..]);
      } else {
        ExecutePreservesConsistency(p, t, events[1..]);
      }
    }
  }

  /**
    `changes` is an exact history of a peer's roles from `start` to `end`:
    each notification is the peer's own, starts from the role the previous
    one ended in, and reports an actual change.
   */
  predicate RoleHistory(id: nat, start: Role, changes: seq<RoleChangeEvent>, end: Role)
    decreases |changes|
  {
    if changes == [] then start == end
    else
      && changes[0].id == id
      && changes[0].from == start
      && changes[0].to != start
      && RoleHistory(id, changes[0].to, changes[1..], end)
  }

  lemma {:induction false} RoleHistoryAppend(id: nat, a: Role, xs: seq<RoleChangeEvent>, b: Role, ys: seq<RoleChangeEvent>, c: Role)
    requires RoleHistory(id, a, xs, b) && RoleHistory(id, b, ys, c)
    ensures RoleHistory(id, a, xs + ys, c)
    decreases |xs|
  {
    if xs == [] {
      assert xs + ys == ys;
    } else {
      assert (xs + ys)[0] == xs[0];
      assert (xs + ys)[1..] == xs[1..] + ys;
      RoleHistoryAppend(id, xs[0].to, xs[1..], b, ys, c);
    }
  }

  lemma StepRoleHistory(p: Peer, e: Event)
    ensures Step(p, e).peer.id == p.id
    ensures RoleHistory(p.id, p.role, Notifications(Step(p, e).effects), Step(p, e).peer.role)
  {
    match e
    case WindowExpiry =>
      var r := Resolve(p);
      if p.role != r.peer.role {
        assert Notifications(r.effects)[1..] == [];
      }
    case Message(channel, raw) =>
    case _ =>
  }

  /**
    The `roleChange` events a peer emits are exactly its role transitions: a
    listener that starts from the peer's role and follows them ends at the
    peer's current role, and never sees a change to the same role.
   */
  lemma {:induction false} ExecuteReportsRoleChanges(p: Peer, t: Timers, events: seq<Event>)
    ensures Execute(p, t, events).peer.id == p.id
    ensures RoleHistory(p.id, p.role, Notifications(Execute(p, t, events).effects), Execute(p, t, events).peer.role)
    decreases |events|
  {
    if events != [] {
      if Enabled(t, events[0]) {
        var step := Step(p, events[0]);
        var rest := Execute(step.peer, Advance(t, events[0], step.effects), events[1..]);
        StepRoleHistory(p, events[0]);
        ExecuteReportsRoleChanges(step.peer, Advance(t, events[0], step.effects), events[1..]);
        NotificationsAppend(step.effects, rest.effects);
        RoleHistoryAppend(p.id, p.role, Notifications(step.effects), step.peer.role,
                          Notifications(rest.effects), rest.peer.role);
      } else {
        ExecuteReportsRoleChanges(p, t, events[1..]);
      }
    }
  }
}

=== FILE: peer_state.dfy ===
/**
  The state of one peer (the fields of `Worker`, index.js:5-25) and the
  observable effects of its reactions. Timers and the publish connection are
  not objects here: arming or clearing a timer and publishing a message are
  effects a transition returns, and timer expiry is an input event.
 */
module PeerState {
  import opened Wrappers
  import opened Wire

  /** `this.role`: `undefined` until the first election resolves. */
  datatype Role = Unset | Scheduler | Worker

  const MarcoChannel: string := "marco"
  const PoloChannel: string := "polo"

  /** `this.rollCallFrequency` as the constructor sets it, in milliseconds. */
  const DefaultRollCallFrequency: nat := 10000

  /** How long `determineRank` waits before resolving, in milliseconds (index.js:130). */
  const ElectionWindowMs: nat := 3000

  /**
    One peer. `attendance` is the period of the live attendance interval, or
    `None` while `this.attendanceTimer` is still `undefined`.
   */
  datatype Peer = Peer(
    id: nat,
    role: Role,
    workerList: seq<nat>,
    determiningRank: bool,
    attendance: Option<nat>,
    rollCallFrequency: nat)

  /** How many attendance intervals the peer holds a handle to: at most the one in `attendanceTimer`. */
  function LiveIntervals(p: Peer): nat {
    if p.attendance.Some? then 1 else 0
  }

  /** A freshly constructed `Worker` whose clock-derived id is `id`. */
  function NewPeer(id: nat): Peer {
    Peer(id, Unset, [], false, None, DefaultRollCallFrequency)
  }

  /** The payload of a `roleChange` event. */
  datatype RoleChangeEvent = RoleChangeEvent(id: nat, from: Role, to: Role, connected: seq<nat>)

  datatype Effect =
    | Publish(channel: string, message: string)
    | ArmElectionWindow(delayMs: nat)
    | ClearAttendance
    | ArmAttendance(periodMs: nat)
    | RoleChange(event: RoleChangeEvent)

  /** The state after a reaction and what the reaction did, in order. */
  datatype Transition = Transition(peer: Peer, effects: seq<Effect>)

  /** `speak(channel, value)`. */
  function Speak(id: nat, channel: string, value: Option<string>): Effect {
    Publish(channel, Encode(id, value))
  }

  /** The `roleChange` events among some effects, in order. */
  function Notifications(effects: seq<Effect>): seq<RoleChangeEvent> {
    if effects == [] then []
    else (if effects[0].RoleChange? then [effects[0].event] else []) + Notifications(effects[1..])
  }

  lemma {:induction false} NotificationsAppend(a: seq<Effect>, b: seq<Effect>)
    ensures Notifications(a + b) == Notifications(a) + Notifications(b)
  {
    if a != [] {
      assert (a + b)[0] == a[0] && (a + b)[1..] == a[1..] + b;
      NotificationsAppend(a[1..], b);
    } else {
      assert a + b == b;
    }
  }

  /** No effect in `effects` publishes a message. */
  predicate PublishesNothing(effects: seq<Effect>) {
    forall k :: 0 <= k < |effects| ==> !effects[k].Publish?
  }

  /** Every attendance interval armed in `effects` has period `period`. */
  predicate ArmsAttendanceAt(effects: seq<Effect>, period: nat) {
    forall k :: 0 <= k < |effects| && effects[k].ArmAttendance? ==> effects[k].periodMs == period
  }

  /**
    The effects reset the attendance timer: they end by arming an interval of
    `period`, and when an interval was `held` they clear it before that.
   */
  predicate ResetsAttendanceTo(effects: seq<Effect>, held: bool, period: nat) {
    && |effects| > 0
    && effects[|effects| - 1] == ArmAttendance(period)
    && (held ==> exists k :: 0 <= k < |effects| - 1 && effects[k] == ClearAttendance)
  }

  lemma ResetAfterAnnouncements(a: seq<Effect>, b: seq<Effect>, held: bool, period: nat)
    requires ResetsAttendanceTo(b, held, period)
    ensures ResetsAttendanceTo(a + b, held, period)
  {
    assert (a + b)[|a + b| - 1] == b[|b| - 1];
    if held {
      var k :| 0 <= k < |b| - 1 && b[k] == ClearAttendance;
      assert (a + b)[|a| + k] == ClearAttendance;
    }
  }

  /** Announcements put in front of some effects neither publish nor arm an interval. */
  lemma AnnouncementsFirst(a: seq<Effect>, b: seq<Effect>, period: nat)
    requires forall k :: 0 <= k < |a| ==> a[k].RoleChange?
    requires PublishesNothing(b) && ArmsAttendanceAt(b, period)
    ensures PublishesNothing(a + b) && ArmsAttendanceAt(a + b, period)
  {
    assert forall k :: |a| <= k < |a + b| ==> (a + b)[k] == b[k - |a|];
  }

  /** The timers a peer's environment holds: pending election windows and live attendance intervals. */
  datatype Timers = Timers(windows: nat, intervals: nat)

  /**
    What the environment does with one effect. `clearInterval` stops the one
    interval the peer still holds a handle to.
   */
  function ScheduleOne(t: Timers, e: Effect): Timers {
    match e
    case ArmElectionWindow(_) => t.(windows := t.windows + 1)
    case ArmAttendance(_) => t.(intervals := t.intervals + 1)
    case ClearAttendance => t.(intervals := if t.intervals > 0 then t.intervals - 1 else 0)
    case _ => t
  }

  function Schedule(t: Timers, effects: seq<Effect>): Timers
    decreases |effects|
  {
    if effects == [] then t else Schedule(ScheduleOne(t, effects[0]), effects[1..])
  }

  lemma {:induction false} ScheduleAppend(t: Timers, a: seq<Effect>, b: seq<Effect>)
    ensures Schedule(t, a + b) == Schedule(Schedule(t, a), b)
    decreases |a|
  {
    if a != [] {
      assert (a + b)[0] == a[0] && (a + b)[1..] == a[1..] + b;
      ScheduleAppend(ScheduleOne(t, a[0]), a[1..], b);
    } else {
      assert a + b == b;
    }
  }

  /** Publishing and announcing leave the timers alone. */
  lemma {:induction false} MessagesLeaveTimers(t: Timers, pre: seq<Effect>, rest: seq<Effect>)
    requires forall k :: 0 <= k < |pre| ==> pre[k].Publish? || pre[k].RoleChange?
    ensures Schedule(t, pre + rest) == Schedule(t, rest)
    decreases |pre|
  {
    if pre == [] {
      assert pre + rest == rest;
    } else {
      assert (pre + rest)[0] == pre[0];
      assert (pre + rest)[1..] == pre[1..] + rest;
      MessagesLeaveTimers(t, pre[1..], rest);
    }
  }
}

=== FILE: scenarios.dfy ===
/**
  Whole election rounds. A fresh peer calls roll, hears the beacons of other
  peers while its window is open, and resolves when the window expires.
 */
module Scenarios {
  import opened Wrappers
  import opened Wire
  import opened Membership
  import opened PeerState
  import opened Election
  import opened Handshake

  /** A beacon from another peer: a `marco` (`marco == true`) or a `polo`. */
  datatype Greeting = Greeting(marco: bool, from: nat)

  function Senders(gs: seq<Greeting>): seq<nat> {
    if gs == [] then [] else [gs[0].from] + Senders(gs[1..])
  }

  /** The membership list after recording each sender in turn. */
  function Record(list: seq<nat>, senders: seq<nat>): seq<nat>
    decreases |senders|
  {
    if senders == [] then list else Record(AddIfAbsent(list, senders[0]), senders[1..])
  }

  lemma {:induction false} RecordMembers(list: seq<nat>, senders: seq<nat>)
    ensures forall x :: x in Record(list, senders) <==> x in list || x in senders
    ensures NoDuplicates(list) ==> NoDuplicates(Record(list, senders))
    decreases |senders|
  {
    if senders != [] {
      RecordMembers(AddIfAbsent(list, senders[0]), senders[1..]);
      assert senders == [senders[0]] + senders[1..];
    }
  }

  /** The beacon `g` as it arrives at a peer. */
  function Greet(p: Peer, g: Greeting): Transition {
    OnMessage(p, if g.marco then MarcoChannel else PoloChannel, Encode(g.from, None))
  }

  /** A peer hearing each beacon of `gs` in turn: the final peer and every effect, in order. */
  function Gather(p: Peer, gs: seq<Greeting>): Transition
    decreases |gs|
  {
    if gs == [] then Transition(p, [])
    else
      var first := Greet(p, gs[0]);
      var rest := Gather(first.peer, gs[1..]);
      Transition(rest.peer, first.effects + rest.effects)
  }

  /** One beacon from another peer while an election is open: recorded, nothing else. */
  lemma GreetDuringElection(p: Peer, g: Greeting)
    requires p.determiningRank && g.from != p.id
    ensures Greet(p, g).peer == p.(workerList := AddIfAbsent(p.workerList, g.from))
    ensures Notifications(Greet(p, g).effects) == []
  {
    DecodeEncodeAbsent(g.from);
  }

  /** Beacons heard during an open election only add their senders to the list, and announce nothing. */
  lemma {:induction false} GatherDuringElection(p: Peer, gs: seq<Greeting>)
    requires p.determiningRank
    requires forall k :: 0 <= k < |gs| ==> gs[k].from != p.id
    ensures Gather(p, gs).peer == p.(workerList := Record(p.workerList, Senders(gs)))
    ensures Notifications(Gather(p, gs).effects) == []
    decreases |gs|
  {
    if gs != [] {
      var first := Greet(p, gs[0]);
      GreetDuringElection(p, gs[0]);
      GatherDuringElection(first.peer, gs[1..]);
      NotificationsAppend(first.effects, Gather(first.peer, gs[1..]).effects);
    }
  }

  /**
    A fresh peer's first election round: roll call, the beacons `gs` heard
    while the window is open, then the window's expiry.
   */
  function Round(id: nat, gs: seq<Greeting>): Transition {
    var called := CallMarco(NewPeer(id));
    var heard := Gather(called.peer, gs);
    var resolved := Resolve(heard.peer);
    Transition(resolved.peer, called.effects + heard.effects + resolved.effects)
  }

  /** The list a fresh peer resolves on after hearing `gs`. */
  lemma {:induction false} RoundGathers(id: nat, gs: seq<Greeting>)
    requires forall k :: 0 <= k < |gs| ==> gs[k].from != id
    ensures Gather(CallMarco(NewPeer(id)).peer, gs).peer
              == Peer(id, Unset, Record([id], Senders(gs)), true, None, DefaultRollCallFrequency)
    ensures Notifications(CallMarco(NewPeer(id)).effects + Gather(CallMarco(NewPeer(id)).peer, gs).effects) == []
  {
    var called := CallMarco(NewPeer(id));
    GatherDuringElection(called.peer, gs);
    NotificationsAppend(called.effects, Gather(called.peer, gs).effects);
  }

  /** Resolving on the list gathered from `gs`, as a fresh peer does at the end of its first round. */
  lemma {:induction false} ResolveGathered(id: nat, gs: seq<Greeting>)
    requires forall k :: 0 <= k < |gs| ==> gs[k].from != id
    ensures var r := Resolve(Peer(id, Unset, Record([id], Senders(gs)), true, None, DefaultRollCallFrequency));
            && (r.peer.role == Scheduler <==> forall k :: 0 <= k < |gs| ==> id < gs[k].from)
            && r.peer.role != Unset
            && Notifications(r.effects) == [RoleChangeEvent(id, Unset, r.peer.role, r.peer.workerList)]
            && Sorted(r.peer.workerList) && NoDuplicates(r.peer.workerList)
            && (forall x :: x in r.peer.workerList <==> x == id || x in Senders(gs))
            && r.peer.attendance == Some(2 * DefaultRollCallFrequency)
  {
    var gathered := Peer(id, Unset, Record([id], Senders(gs)), true, None, DefaultRollCallFrequency);
    var resolved := Resolve(gathered);
    RecordMembers([id], Senders(gs));
    SendersListed(gs);
    PermutationKeepsNoDuplicates(gathered.workerList, resolved.peer.workerList);
    SameMembers(resolved.peer.workerList, gathered.workerList);
    assert (forall x :: x in gathered.workerList ==> id <= x) <==> (forall k :: 0 <= k < |gs| ==> id < gs[k].from) by {
      if forall x :: x in gathered.workerList ==> id <= x {
        forall k | 0 <= k < |gs|
          ensures id < gs[k].from
        {
          assert gs[k].from in gathered.workerList;
        }
      }
    }
  }

  /**
    A fresh peer's first election round: it becomes scheduler exactly when
    every peer it heard from has a larger id, and it announces exactly one
    role change, from unset to that role, listing itself and everyone it
    heard from in ascending order. Its first attendance period is the
    worker's, twice the roll-call frequency, whatever role it took.
   */
  lemma {:induction false} ElectionRound(id: nat, gs: seq<Greeting>)
    requires forall k :: 0 <= k < |gs| ==> gs[k].from != id
    ensures var r := Round(id, gs);
            && (r.peer.role == Scheduler <==> forall k :: 0 <= k < |gs| ==> id < gs[k].from)
            && r.peer.role != Unset
            && Notifications(r.effects) == [RoleChangeEvent(id, Unset, r.peer.role, r.peer.workerList)]
            && Sorted(r.peer.workerList) && NoDuplicates(r.peer.workerList)
            && (forall x :: x in r.peer.workerList <==> x == id || x in Senders(gs))
            && r.peer.attendance == Some(2 * DefaultRollCallFrequency)
  {
    RoundGathers(id, gs);
    ResolveGathered(id, gs);
    var called := CallMarco(NewPeer(id));
    var heard := Gather(called.peer, gs);
    NotificationsAppend(called.effects + heard.effects, Resolve(heard.peer).effects);
  }

  lemma {:induction false} SendersListed(gs: seq<Greeting>)
    ensures forall k :: 0 <= k < |gs| ==> gs[k].from in Senders(gs)
    ensures forall x :: x in Senders(gs) ==> exists k :: 0 <= k < |gs| && gs[k].from == x
  {
    if gs != [] {
      SendersListed(gs[1..]);
      forall k | 1 <= k < |gs|
        ensures gs[k].from in Senders(gs)
      {
        assert gs[1..][k - 1] == gs[k];
      }
      forall x | x in Senders(gs)
        ensures exists k :: 0 <= k < |gs| && gs[k].from == x
      {
        if x != gs[0].from {
          var k :| 0 <= k < |gs[1..]| && gs[1..][k].from == x;
          assert gs[k + 1].from == x;
        }
      }
    }
  }
}

=== FILE: wire.dfy ===
/**
  The wire envelope. Every message a peer publishes is the text
  `<senderId>:<value>` (index.js:56-59); a receiver reads the sender from the
  text before the first colon and the payload from the text between the first
  and the second colon (index.js:155-156).
 */
module Wire {
  import opened Wrappers
  import opened Decimal

  /** What `speak` sends when it is given no value (or a falsy one). */
  const NoMessage: string := "no message"

  predicate ColonFree(s: string) {
    ':' !in s
  }

  /** `s.split(':')[0]`: the text before the first colon, or all of `s`. */
  function BeforeColon(s: string): (r: string)
    ensures |r| <= |s| && r == s[..|r|]
    ensures ColonFree(r)
    ensures |r| == |s| || s[|r|] == ':'
  {
    if s == [] || s[0] == ':' then [] else [s[0]] + BeforeColon(s[1..])
  }

  /** The text after the first colon, or `None` when `s` has no colon. */
  function AfterColon(s: string): (r: Option<string>)
    ensures r.None? <==> ColonFree(s)
    ensures r.Some? ==> s == BeforeColon(s) + [':'] + r.value
  {
    var head := BeforeColon(s);
    if |head| == |s| then
      assert head == s;
      None
    else
      Some(s[|head| + 1..])
  }

  lemma ColonFreeIsWhole(s: string)
    requires ColonFree(s)
    ensures BeforeColon(s) == s
  {
  }

  /** Splitting text that begins with a colon-free segment and a colon. */
  lemma {:induction false} SplitAtFirstColon(head: string, tail: string)
    requires ColonFree(head)
    ensures BeforeColon(head + [':'] + tail) == head
    ensures AfterColon(head + [':'] + tail) == Some(tail)
  {
    if head != [] {
      assert (head + [':'] + tail)[1..] == head[1..] + [':'] + tail;
      SplitAtFirstColon(head[1..], tail);
    }
  }

  /** `messageValue || 'no message'`: an absent or empty value is replaced. */
  function MessageText(value: Option<string>): (text: string)
    ensures text != []
    ensures value.Some? && value.value != [] ==> text == value.value
  {
    match value
    case Some(v) => if v == [] then NoMessage else v
    case None => NoMessage
  }

  /** The envelope `speak` publishes for a sender id and an optional value. */
  function Encode(id: nat, value: Option<string>): string {
    ToDigits(id) + [':'] + MessageText(value)
  }

  /** A decoded envelope: the sender is `None` where `Number(...)` would not give a natural. */
  datatype Envelope = Envelope(sender: Option<nat>, payload: Option<string>)

  /** `Number(segment)` restricted to digit strings; `Number('')` is 0. */
  function ParseSender(segment: string): (r: Option<nat>)
    ensures r.Some? <==> AllDigits(segment)
    ensures r.Some? ==> r.value == FromDigits(segment)
  {
    if AllDigits(segment) then Some(FromDigits(segment)) else None
  }

  /** The receiving half of `handleMessage`: sender before the first colon, payload up to the second. */
  function Decode(raw: string): (e: Envelope)
    ensures e.sender.Some? <==> AllDigits(BeforeColon(raw))
    ensures e.sender == ParseSender(BeforeColon(raw))
    ensures e.payload.None? <==> ColonFree(raw)
    ensures e.payload.Some? ==>
              && ColonFree(e.payload.value)
              && exists rest :: raw == BeforeColon(raw) + [':'] + e.payload.value + rest
                                && (rest == [] || rest[0] == ':')
  {
    var after := AfterColon(raw);
    if after.None? then
      Envelope(ParseSender(BeforeColon(raw)), None)
    else
      PayloadWitness(raw, after.value);
      Envelope(ParseSender(BeforeColon(raw)), Some(BeforeColon(after.value)))
  }

  /**
    Concatenation regrouped. Kept as a lemma of its own: stated inline, the
    same step drags the surrounding string definitions into the proof.
   */
  lemma Regroup(a: string, b: string, c: string)
    ensures a + (b + c) == a + b + c
  {
  }

  /** Text splits into its colon-free head and the rest, which is empty or starts at a colon. */
  lemma SplitHead(s: string)
    ensures var head := BeforeColon(s);
            && s == head + s[|head|..]
            && (s[|head|..] == [] || s[|head|..][0] == ':')
  {
  }

  /** The text after the payload is empty or starts at the second colon. */
  lemma PayloadWitness(raw: string, rest: string)
    requires AfterColon(raw) == Some(rest)
    ensures var p := BeforeColon(rest);
            && raw == BeforeColon(raw) + [':'] + p + rest[|p|..]
            && (rest[|p|..] == [] || rest[|p|..][0] == ':')
  {
    SplitHead(rest);
    Regroup(BeforeColon(raw) + [':'], BeforeColon(rest), rest[|BeforeColon(rest)|..]);
  }

  /**
    Decoding an encoded envelope gives back the sender id, and as payload the
    part of the sent text before its first colon.
   */
  lemma DecodeEncode(id: nat, value: Option<string>)
    ensures Decode(Encode(id, value)) == Envelope(Some(id), Some(BeforeColon(MessageText(value))))
  {
    var digits := ToDigits(id);
    SplitAtFirstColon(digits, MessageText(value));
    FromToDigits(id);
  }

  /** A colon-free, non-empty value survives the round trip unchanged. */
  lemma DecodeEncodeColonFree(id: nat, value: string)
    requires ColonFree(value) && value != []
    ensures Decode(Encode(id, Some(value))) == Envelope(Some(id), Some(value))
  {
    DecodeEncode(id, Some(value));
    ColonFreeIsWhole(value);
  }

  /** A value-less `speak` is received as the placeholder text. */
  lemma DecodeEncodeAbsent(id: nat)
    ensures Decode(Encode(id, None)) == Envelope(Some(id), Some(NoMessage))
    ensures Decode(Encode(id, Some([]))) == Envelope(Some(id), Some(NoMessage))
  {
    assert Encode(id, Some([])) == Encode(id, None);
    assert ColonFree(NoMessage);
    ColonFreeIsWhole(NoMessage);
    DecodeEncode(id, None);
  }

  /** Only the text up to a second colon is delivered: `7:a:b` carries payload `a`. */
  lemma PayloadStopsAtSecondColon(id: nat, head: string, tail: string)
    requires ColonFree(head)
    ensures Decode(Encode(id, Some(head + [':'] + tail))) == Envelope(Some(id), Some(head))
  {
    DecodeEncode(id, Some(head + [':'] + tail));
    SplitAtFirstColon(head, tail);
  }
}

=== FILE: wrappers.dfy ===
/** Optional values, used for JavaScript's `undefined`. */
module Wrappers {

  datatype Option<+T> = None | Some(value: T)
}
